=== FILE: README.md ===
# Rolling-year tax residency: a verified model of the day accounting

The program decides whether a person is a Russian tax resident. The comment
at the top of its source (main.py:1-5) states the rule: someone present in
the country for at least 183 calendar days within twelve consecutive months,
which may span two calendar years. The user gives a log of border crossings,
each an entry ("in") or an exit ("out") on a calendar date. The program sorts
the log and checks that entries and exits alternate. It then sums the stays
recorded after the window start, which is the same date a year ago. When the
last crossing before the window start is an entry, the stay that entry opens
is counted from the entry's own date. An exit at the head of the window is
dropped, and a stay still open is closed today. The person is resident when
the sum is more than 183 days. If the person is resident, the program also
projects the date on which residency would lapse.

This project models that computation in Dafny. Calendar dates are integer
day ordinals, so the difference of two dates is the number of days between
them. `today` and the window start, the original's `last_year`, are
parameters.

- `Crossings` (crossings.dfy): the crossing datatype and the errors the
  original raises:
  - `InvalidEntries` is the `ValueError`;
  - `NothingToInspect` is the `IndexError` raised when no crossing is left to
    inspect;
  - `OddLength` is the failed even-length `assert`.

  It also defines alternation, sortedness, and facts about alternating
  logs.
- `Validator` (validator.dfy): the alternation check `are_entries_valid`, as a
  loop over the log.
- `Window` (window.dfy): the first half of
  `calc_days_in_country_for_last_year`:
  - the anchor, which is the last crossing before the window start;
  - the crossings strictly after the window start;
  - the entry carried over from before the window;
  - the two boundary fix-ups;
  - the even-length assertion.
- `Accounting` (accounting.dfy): the second half. It splits the resolved
  list into entries and exits, pairs them position by position as `zip`
  does, and sums the days.
- `Residency` (residency.dfy): the verdict `is_tax_resident` and the expiry
  projection `when_tax_residency_expires`.
- `Scenarios` (scenarios.dfy): worked examples, including the six-crossing
  log from the comment at the top of the source.

The code departs from the rule in its own header comment in two ways. The
model follows the code:

- The verdict at main.py:72 asks for more than 183 days, but the comment asks
  for at least 183. A stay of exactly 183 days inside the window is therefore
  not residency (`ThresholdIsStrict`, `ThresholdStayNotResident`).
- The count is not confined to the twelve months the comment and the name
  `calc_days_in_country_for_last_year` speak of. An entry before the window
  start is carried over with its own date (main.py:90-92), so every day from
  that entry on is counted. This can flip the verdict: a stay from 200 days
  before the window start to 10 days into it counts 210 days, and the person
  is resident (`StayAcrossWindowStart`, `OldEntryMakesResident`). The count is
  bounded by the log's own span, not by the window (`CalcDaysBounds`).

Three more behaviours of the code are easy to misread:

- The carried-over entry keeps the anchor's own date, which lies before the
  window start. In the six-crossing example of the source the ten days
  before the window start count too (`CarryOverKeepsAnchorDate`,
  `ExampleLog`).
- A crossing dated exactly on the window start is neither kept in the window
  nor taken as the anchor. On a valid sorted log this can fail the
  even-length assertion (`ExitOnWindowStartBreaksAssertion`). It can never
  let a malformed list through: whenever resolution succeeds, the list
  alternates and has even length (`ResolvedShape`).
- The index error happens when the carried list is empty or a single exit.
  On a valid sorted log with nothing on the window start, that means the log
  is empty, or everything lies before the window start and the last crossing
  is an exit, or the log is one exit inside the window
  (`NothingToInspectExactly`). An entry before the window start with nothing
  after it is carried over and closed today instead.

## Model

| member | source | states |
|---|---|---|
| Validator.AreEntriesValid | main.py:51-66 | the log is accepted exactly when no two adjacent crossings have the same kind; an empty or one-crossing log is always accepted; order is not checked |
| Crossings.EvenIffEndsWithOut | main.py:51-66 | an alternating log that starts with an entry ends with an exit exactly when its length is even |
| Crossings.AlternatingByParity | main.py:51-66 | in an alternating log every even position has the first crossing's kind and every odd position the other kind |
| Window.AnchorIndex | main.py:83-87 | the anchor is absent exactly when no crossing is dated strictly before the window start; when present, it is dated before the window start and no later crossing in the list is |
| Window.AnchorAt | main.py:83-87 | a crossing dated before the window start with none after it in the list is the anchor |
| Window.InWindow | main.py:89 | the clipped log is no longer than the log, and every crossing in it is dated strictly after the window start |
| Window.InWindowExactly | main.py:89 | a crossing is in the clipped log exactly when it is in the log and dated strictly after the window start |
| Window.InWindowAppend | main.py:89 | clipping keeps log order: clipping a concatenation concatenates the clipped parts |
| Window.InWindowKeepsAll | main.py:89 | a log dated entirely after the window start is kept whole |
| Window.InWindowDropsAll | main.py:89 | a log dated entirely on or before the window start is dropped whole |
| Window.InWindowCut | main.py:89 | a log whose first k crossings are on or before the window start and whose remaining crossings are after it is clipped to its suffix from k |
| Window.WindowIsSuffix | main.py:89 | on a sorted log the clipped log is a suffix of it; everything before the suffix is on or before the window start, and everything in it is after |
| Window.AnchorJustBeforeWindow | main.py:84-89 | on a sorted log with nothing on the window start, the anchor is the crossing just before the clipped suffix, or absent when the suffix is the whole log |
| Window.CarryOver | main.py:90-92 | at most one entry is carried over, and one is carried exactly when the anchor exists and is an entry; it is a fresh entry with the anchor's date, before the window start |
| Window.CarryOverKeepsAnchorDate | main.py:90-92 | when the anchor is an entry, the index error cannot happen, and a resolved list starts with an entry dated on the anchor's date, not on the window start |
| Window.CarriedWholeLog | main.py:84-92 | a log dated entirely after the window start has no anchor and is carried over unchanged |
| Window.DropLeadingOutRemovesOneExit | main.py:94-95 | at most one crossing is removed, only from the front, and one is removed exactly when the list starts with an exit |
| Window.CloseOpenStayAppendsOneExit | main.py:97-99 | an exit dated today is appended exactly when the list ends with an entry; the original list is a prefix of the result, and the result ends with an exit |
| Window.Carried | main.py:84-92 | the clipped log with the carried-over entry, if any, in front; `CarriedShape` and `CarriedAlternates` state its shape, `CarriedWithinLog` and `CarriedSorted` its dates |
| Window.DropLeadingOut | main.py:94-95 | removes a leading exit; `DropLeadingOutRemovesOneExit` states that nothing else changes |
| Window.CloseOpenStay | main.py:97-99 | closes an open stay with an exit dated today; `CloseOpenStayAppendsOneExit` states that nothing else changes |
| Window.CloseEnds | main.py:94-102 | the fix-ups either fail with the index or the assertion error, or yield a non-empty, even-length list ending with an exit; the index error happens exactly on an empty list or a lone exit |
| Window.Resolve | main.py:84-102 | window resolution either fails with the index or the assertion error, or yields a non-empty, even-length list ending with an exit |
| Window.CarriedAlternates | main.py:84-92 | on a valid sorted log with nothing on the window start, the carried list still alternates |
| Window.DropLeadingOutAlternates | main.py:94-95 | after the leading exit is dropped, an alternating list still alternates and, when it is non-empty, starts with an entry |
| Window.CloseOpenStayAlternates | main.py:97-99 | closing an alternating list that starts with an entry keeps it alternating and gives it even length |
| Window.CloseEndsAlternates | main.py:94-102 | on an alternating carried list the even-length assertion never fails, and a resolved list alternates and starts with an entry |
| Window.ResolveWellFormed | main.py:84-102 | on a valid sorted log with nothing on the window start the assertion never fails, and a resolved list alternates, starts with an entry, ends with an exit and has even length |
| Window.CarriedShape | main.py:84-92 | on any valid sorted log the carried list alternates, or is an entry followed by an alternating list that also starts with an entry |
| Window.DoubleEntryOddLength | main.py:94-102 | an entry followed by such a list always fails the even-length assertion |
| Window.ResolvedShape | main.py:84-102 | on any valid sorted log, even with crossings on the window start, a resolved list alternates, starts with an entry, ends with an exit and has even length |
| Window.NothingInWindow | main.py:89-97 | on a sorted log with nothing on the window start and nothing after it, every crossing lies before it, and the index error happens exactly when the log is empty or its last crossing is an exit |
| Window.StraddlingWindow | main.py:84-97 | on a valid sorted log with nothing on the window start and crossings both before and after it, the index error cannot happen |
| Window.SomethingInWindow | main.py:84-97 | on a valid sorted log with nothing on the window start and something after it, the index error happens exactly when the log is one exit inside the window |
| Window.NothingToInspectExactly | main.py:84-97 | on a valid sorted log with nothing on the window start, the index error happens exactly when everything is before the window start and the log is empty or ends with an exit, or when the log is a single exit inside the window |
| Window.CloseEndsKeepsLeadingIn | main.py:94-99 | a list that starts with an entry never raises the index error, and its first crossing survives the fix-ups |
| Window.InWindowLast | main.py:89 | when the last crossing is after the window start, the clipped log is non-empty and ends with that crossing |
| Window.CloseEndsClosesOpenStay | main.py:97-99 | a list ending with an entry resolves to a list ending with an exit dated today |
| Window.OpenStayEndsToday | main.py:84-99 | a log whose last crossing is an entry after the window start resolves to a list whose last crossing is an exit dated today |
| Window.WindowWithinLog | main.py:89 | on a sorted log every clipped crossing is dated between the log's first and last crossings |
| Window.CarryOverWithinLog | main.py:90-92 | on a sorted log a carried-over entry is dated between the log's first and last crossings |
| Window.CarriedWithinLog | main.py:84-92 | on a sorted log every crossing of the carried list is dated between the log's first and last crossings |
| Window.CarriedSorted | main.py:84-92 | the carried list of a sorted log is sorted |
| Window.CloseEndsSorted | main.py:94-99 | fix-ups on a sorted list dated within [lo, today] give a sorted list that starts no earlier than lo and ends no later than today |
| Window.ResolvedSorted | main.py:84-99 | on a sorted log with nothing after today, a resolved list is sorted, starts no earlier than the log and ends no later than today |
| Window.ExitOnWindowStartBreaksAssertion | main.py:84-102 | for the valid sorted log entry, exit on the window start, entry: the exit is neither the anchor nor kept in the window, the list carried over is entry, entry, and the even-length assertion fails |
| Accounting.Ins | main.py:104 | the entries of a list in order; `SplitByKind` states it holds exactly the list's entries, each as often as the list does |
| Accounting.Outs | main.py:105 | the exits of a list in order; `SplitByKind` states it holds exactly the list's exits, each as often as the list does |
| Accounting.ZipDays | main.py:107-110 | the day differences of position-wise pairs summed up to the shorter list, as `zip` does |
| Accounting.TotalDays | main.py:104-112 | the day total of a resolved list; `ZipPairsConsecutive` equates it with the sum of consecutive stays |
| Accounting.CalcDays | main.py:79-112 | the day count fails exactly when window resolution fails, with the same error, and never with the validation error |
| Accounting.SplitByKind | main.py:104-105 | the entries and the exits together are as many as the list, are exactly its crossings of each kind, and as multisets add up to the list, so splitting loses, duplicates and invents nothing |
| Accounting.PairCounts | main.py:104-108 | on an alternating even-length list that starts with an entry there are as many entries as exits, so `zip` drops nothing |
| Accounting.ZipPairsConsecutive | main.py:104-112 | on such a list, pairing the i-th entry with the i-th exit gives the same total as summing each entry-to-next-exit stay |
| Accounting.StayDaysBounds | main.py:107-112 | on a sorted even-length list the summed stays are non-negative and at most the span from the first crossing to the last |
| Accounting.CalcDaysBounds | main.py:79-112 | for a valid sorted log with nothing after today, even with crossings on the window start, the day count is the sum of the resolved stays, is non-negative, and is at most the days from the first crossing to today |
| Residency.IsTaxResident | main.py:69-72 | the validation error happens exactly when the log does not alternate; otherwise the day count's own error is raised unchanged, or the verdict is true exactly when the count exceeds 183 |
| Residency.ThresholdIsStrict | main.py:72 | a count of exactly 183 days is not residency, and 184 is |
| Residency.NoResidencyWithinThreshold | main.py:69-112 | for a valid sorted log with nothing after today, even with crossings on the window start, no one is resident within 183 days of the first crossing |
| Residency.VerdictOnCleanLog | main.py:69-112 | for a valid sorted log with nothing on the window start or after today, a verdict is reached unless the index error is raised (`NothingToInspectExactly` says exactly when), and no one is resident within 183 days of the first crossing |
| Residency.WhenResidencyExpires | main.py:115-119 | the projected date is before today exactly when more than 183 days were counted, and is today exactly when 183 were |
| Residency.ExpiryRoundTrip | main.py:115-119 | the day count is recovered from the projected date, and one more day present moves the projection one day earlier |
| Residency.ResidentExpiryIsPast | main.py:142-145 | whenever the verdict is resident, the day count succeeds and its projected expiry lies before today |
| Scenarios.OneStayInsideWindow | main.py:79-112 | a single stay inside the window resolves to itself and counts its own length |
| Scenarios.StillPresent | main.py:97-112 | a single entry inside the window is closed today and counts the days up to today |
| Scenarios.RecentStayNotResident | main.py:69-72 | a 63-day stay is not residency |
| Scenarios.LongStayResident | main.py:115-119 | a 348-day open stay is residency, and its expiry projects 165 days before today |
| Scenarios.ExampleLogResolves | main.py:10-16 | the example log resolves to itself, its March 2021 entry carried over with its own date |
| Scenarios.ExampleLogTotal | main.py:10-16 | the example log's stays total 302 days |
| Scenarios.ExampleLog | main.py:10-16 | the example log resolves to a list starting ten days before the window start, counts 302 days, and is residency |
| Scenarios.ThresholdStayNotResident | main.py:72 | a stay of exactly 183 days inside the window counts 183 and is not residency, although the rule in the header comment (lines 1-3) asks for at least 183 days |
| Scenarios.StayAcrossWindowStart | main.py:84-110 | a stay from before the window start into the window resolves to itself and is counted whole from its entry, not from the window start |
| Scenarios.OldEntryMakesResident | main.py:79-112 | a stay from 200 days before the window start to 10 days into it has only its exit in the window, yet counts 210 days and is residency, although the header comment (lines 1-5) confines the count to twelve months |
| Scenarios.TwoEntriesRejected | main.py:69-72 | two entries in a row are rejected with the validation error whatever their dates |

## Left out

- Parsing of crossing records (`parse_record`, `Entry.from_string`, `strptime`, main.py:22-42): text parsing through library calls. Crossings are given as values.
- `Entry.__repr__` (main.py:44-48): display only.
- `sort_entries` (main.py:75-76): its implementation is Python's `sorted`. The model states sortedness as the precondition `SortedByDate` wherever a property depends on it.
- `datetime.now()` (main.py:80, 117): the current date is the parameter `today`.
- `today.replace(year=today.year - 1)` (main.py:81): calendar arithmetic is replaced by the parameter `windowStart`. On 29 February the original raises a `ValueError` here, and that failure is not modelled.
- Python run with `-O` strips the even-length `assert` (main.py:102). The model always performs the check, as a plain run does.
- Dates are unbounded integers: the range limits of Python's `date` (years 1 to 9999) and the `OverflowError` of `timedelta` arithmetic beyond them are not modelled.
- The `__main__` demo and its printing (main.py:122-149): demo only. This includes the missing comma at main.py:124-125, which fuses two records into one string.

=== FILE: accounting.dfy ===
/** Day accounting (`calc_days_in_country_for_last_year`, second half): the
    entries and the exits of the resolved list are paired position by
    position and the days between each pair are summed. */
module Accounting {
  import opened Crossings
  import Window

  /** The entries of a list, in order. */
  function Ins(s: seq<Event>): seq<Event>
  {
    if |s| == 0 then []
    else (if s[0].kind.In? then [s[0]] else []) + Ins(s[1..])
  }

  /** The exits of a list, in order. */
  function Outs(s: seq<Event>): seq<Event>
  {
    if |s| == 0 then []
    else (if s[0].kind.Out? then [s[0]] else []) + Outs(s[1..])
  }

  /** The days between the i-th exit and the i-th entry, summed over the
      positions both lists have (`zip` stops at the shorter one). */
  function ZipDays(ins: seq<Event>, outs: seq<Event>): int
  {
    if |ins| == 0 || |outs| == 0 then 0
    else (outs[0].date - ins[0].date) + ZipDays(ins[1..], outs[1..])
  }

  /** The day total of a resolved list. */
  function TotalDays(r: seq<Event>): int {
    ZipDays(Ins(r), Outs(r))
  }

  /** Reference definition: the days of each stay, an entry followed
      directly by its exit, summed over consecutive pairs of the list. */
  function StayDays(r: seq<Event>): int
  {
    if |r| < 2 then 0 else (r[1].date - r[0].date) + StayDays(r[2..])
  }

  /** Days present in the rolling year ending today, or the exception the
      original raises while resolving the window. */
  function CalcDays(s: seq<Event>, today: int, windowStart: int): (r: Result<int>)
    ensures r.Err? <==> Window.Resolve(s, today, windowStart).Err?
    ensures r.Err? ==> r.error == Window.Resolve(s, today, windowStart).error
    ensures r.Err? ==> r.error != InvalidEntries
  {
    match Window.Resolve(s, today, windowStart)
    case Err(e) => Err(e)
    case Ok(resolved) => Ok(TotalDays(resolved))
  }

  /** A log that resolves to a list counts that list's day total. */
  lemma CalcDaysOfResolved(s: seq<Event>, today: int, windowStart: int, r: seq<Event>)
    requires Window.Resolve(s, today, windowStart) == Ok(r)
    ensures CalcDays(s, today, windowStart) == Ok(TotalDays(r))
  {
  }

  /** Splitting by kind loses, duplicates and invents nothing: the entries
      and the exits are exactly the list's crossings of each kind, each as
      often as in the list. */
  lemma {:induction false} SplitByKind(s: seq<Event>)
    ensures |Ins(s)| + |Outs(s)| == |s|
    ensures forall e :: e in Ins(s) <==> e in s && e.kind == In
    ensures forall e :: e in Outs(s) <==> e in s && e.kind == Out
    ensures multiset(Ins(s)) + multiset(Outs(s)) == multiset(s)
  {
    if |s| > 0 {
      SplitByKind(s[1..]);
      assert s == [s[0]] + s[1..];
      if s[0].kind == In {
        assert Ins(s) == [s[0]] + Ins(s[1..]);
        assert Outs(s) == Outs(s[1..]);
      } else {
        assert Ins(s) == Ins(s[1..]);
        assert Outs(s) == [s[0]] + Outs(s[1..]);
      }
    }
  }

  /** A leading stay contributes its entry to the entries and its exit to
      the exits. */
  lemma PeelStay(r: seq<Event>)
    requires |r| >= 2 && r[0].kind == In && r[1].kind == Out
    ensures Ins(r) == [r[0]] + Ins(r[2..])
    ensures Outs(r) == [r[1]] + Outs(r[2..])
  {
    assert r[1..][1..] == r[2..];
  }

  /** On an alternating list that starts with an entry and has even length,
      no crossing is left unpaired: there are as many entries as exits. */
  lemma {:induction false} PairCounts(r: seq<Event>)
    requires Alternates(r) && |r| % 2 == 0 && (|r| > 0 ==> r[0].kind == In)
    ensures |Ins(r)| == |r| / 2
    ensures |Outs(r)| == |r| / 2
  {
    if |r| > 0 {
      assert r[1].kind == Out;
      PeelStay(r);
      AlternatesSuffix(r, 2);
      if |r| > 2 {
        assert r[2..][0] == r[2];
      }
      PairCounts(r[2..]);
    }
  }

  /** On such a list the position-wise pairing of entries with exits pairs
      each entry with the exit right after it. */
  lemma {:induction false} ZipPairsConsecutive(r: seq<Event>)
    requires Alternates(r) && |r| % 2 == 0 && (|r| > 0 ==> r[0].kind == In)
    ensures TotalDays(r) == StayDays(r)
  {
    if |r| > 0 {
      var rest := r[2..];
      assert r[1].kind == Out;
      PeelStay(r);
      AlternatesSuffix(r, 2);
      if |rest| > 0 {
        assert rest[0] == r[2];
      }
      ZipPairsConsecutive(rest);
      assert ([r[0]] + Ins(rest))[1..] == Ins(rest);
      assert ([r[1]] + Outs(rest))[1..] == Outs(rest);
    }
  }

  /** The stays of a sorted list of even length last a non-negative number
      of days, and together no longer than the span from its first crossing
      to its last. */
  lemma {:induction false} StayDaysBounds(r: seq<Event>)
    requires SortedByDate(r) && |r| % 2 == 0
    ensures 0 <= StayDays(r)
    ensures |r| > 0 ==> StayDays(r) <= Last(r).date - r[0].date
  {
    if |r| > 0 {
      var rest := r[2..];
      SortedSuffix(r, 2);
      StayDaysBounds(rest);
      assert r[0].date <= r[1].date;
      if |rest| > 0 {
        assert rest[0] == r[2] && Last(rest) == Last(r);
        assert r[1].date <= r[2].date;
      }
    }
  }

  /** For a valid sorted log with no crossing after today, a day total is
      the sum of the stays of the resolved list; it is never negative and
      never exceeds the days from the first crossing of the log to today. */
  lemma CalcDaysBounds(s: seq<Event>, today: int, windowStart: int)
    requires Alternates(s) && SortedByDate(s) && NoneAfter(s, today)
    requires CalcDays(s, today, windowStart).Ok?
    ensures CalcDays(s, today, windowStart).value
      == StayDays(Window.Resolve(s, today, windowStart).value)
    ensures 0 <= CalcDays(s, today, windowStart).value <= today - s[0].date
  {
    var r := Window.Resolve(s, today, windowStart).value;
    Window.ResolvedShape(s, today, windowStart);
    Window.ResolvedSorted(s, today, windowStart);
    ZipPairsConsecutive(r);
    StayDaysBounds(r);
  }
}

=== FILE: crossings.dfy ===
/** Border crossings and the properties of crossing logs that the residency
    computation relies on.

    A calendar date is modelled as an integer day ordinal, so that the
    difference of two dates is the whole number of days between them, as
    `(a - b).days` is for Python `date` values.
 */
module Crossings {

  /** Direction of a crossing: entering ("in") or leaving ("out") the country. */
  datatype Kind = In | Out

  /** A crossing on one calendar day. */
  datatype Event = Event(kind: Kind, date: int)

  /** The exceptions the computation can raise. */
  datatype Error =
    | InvalidEntries    // ValueError: two adjacent crossings of the same kind
    | NothingToInspect  // IndexError: no crossing left to inspect after clipping
    | OddLength         // AssertionError: the resolved list has odd length

  datatype Option<+T> = None | Some(value: T)

  /** Either a value or the exception raised instead of it. */
  datatype Result<+T> = Ok(value: T) | Err(error: Error)

  function Last(s: seq<Event>): Event
    requires |s| > 0
  {
    s[|s| - 1]
  }

  function Flip(k: Kind): Kind {
    if k == In then Out else In
  }

  /** No two adjacent crossings have the same kind. */
  predicate Alternates(s: seq<Event>) {
    forall i :: 0 <= i < |s| - 1 ==> s[i].kind != s[i + 1].kind
  }

  /** Dates never decrease along the log (the order `sort_entries` produces). */
  predicate SortedByDate(s: seq<Event>) {
    forall i, j :: 0 <= i < j < |s| ==> s[i].date <= s[j].date
  }

  /** No crossing falls on the given day. */
  predicate NoneDatedOn(s: seq<Event>, day: int) {
    forall i :: 0 <= i < |s| ==> s[i].date != day
  }

  /** No crossing lies after the given day. */
  predicate NoneAfter(s: seq<Event>, day: int) {
    forall i :: 0 <= i < |s| ==> s[i].date <= day
  }

  /** In an alternating log the kinds are fixed by position: even positions
      repeat the first kind, odd positions carry the other one. */
  lemma {:induction false} AlternatingByParity(s: seq<Event>)
    requires Alternates(s) && |s| > 0
    ensures forall i :: 0 <= i < |s| ==>
      s[i].kind == (if i % 2 == 0 then s[0].kind else Flip(s[0].kind))
  {
    if |s| > 1 {
      var p := s[..|s| - 1];
      assert Alternates(p) by {
        forall i | 0 <= i < |p| - 1
          ensures p[i].kind != p[i + 1].kind
        {
          assert p[i] == s[i] && p[i + 1] == s[i + 1];
        }
      }
      AlternatingByParity(p);
      forall i | 0 <= i < |s|
        ensures s[i].kind == (if i % 2 == 0 then s[0].kind else Flip(s[0].kind))
      {
        if i < |s| - 1 {
          assert s[i] == p[i];
        } else {
          assert s[i - 1] == p[i - 1];
        }
      }
    }
  }

  /** An alternating log that starts with an entry ends with an exit exactly
      when it has even length. */
  lemma EvenIffEndsWithOut(s: seq<Event>)
    requires Alternates(s) && |s| > 0 && s[0].kind == In
    ensures Last(s).kind == Out <==> |s| % 2 == 0
  {
    AlternatingByParity(s);
  }

  // ---------------------------------------------------------------------
  // Building alternating and sorted lists piece by piece

  lemma AlternatesSuffix(s: seq<Event>, k: nat)
    requires Alternates(s) && k <= |s|
    ensures Alternates(s[k..])
  {
    forall i | 0 <= i < |s[k..]| - 1
      ensures s[k..][i].kind != s[k..][i + 1].kind
    {
      assert s[k..][i] == s[k + i] && s[k..][i + 1] == s[k + i + 1];
    }
  }

  lemma AlternatesPrepend(x: Event, w: seq<Event>)
    requires Alternates(w) && (|w| > 0 ==> w[0].kind != x.kind)
    ensures Alternates([x] + w)
  {
    var c := [x] + w;
    forall i | 0 <= i < |c| - 1
      ensures c[i].kind != c[i + 1].kind
    {
      if i > 0 {
        assert c[i] == w[i - 1] && c[i + 1] == w[i];
      }
    }
  }

  lemma AlternatesAppend(d: seq<Event>, x: Event)
    requires Alternates(d) && (|d| > 0 ==> Last(d).kind != x.kind)
    ensures Alternates(d + [x])
  {
    var e := d + [x];
    forall i | 0 <= i < |e| - 1
      ensures e[i].kind != e[i + 1].kind
    {
      if i + 1 < |d| {
        assert e[i] == d[i] && e[i + 1] == d[i + 1];
      }
    }
  }

  lemma SortedSuffix(s: seq<Event>, k: nat)
    requires SortedByDate(s) && k <= |s|
    ensures SortedByDate(s[k..])
  {
    forall i, j | 0 <= i < j < |s[k..]|
      ensures s[k..][i].date <= s[k..][j].date
    {
      assert s[k..][i] == s[k + i] && s[k..][j] == s[k + j];
    }
  }

  lemma SortedPrepend(x: Event, w: seq<Event>)
    requires SortedByDate(w) && forall i :: 0 <= i < |w| ==> x.date <= w[i].date
    ensures SortedByDate([x] + w)
  {
    var c := [x] + w;
    forall i, j | 0 <= i < j < |c|
      ensures c[i].date <= c[j].date
    {
      assert c[j] == w[j - 1];
      if i > 0 {
        assert c[i] == w[i - 1];
      }
    }
  }

  lemma SortedAppend(d: seq<Event>, x: Event)
    requires SortedByDate(d) && NoneAfter(d, x.date)
    ensures SortedByDate(d + [x])
  {
    var e := d + [x];
    forall i, j | 0 <= i < j < |e|
      ensures e[i].date <= e[j].date
    {
      assert e[i] == d[i];
      if j < |d| {
        assert e[j] == d[j];
      }
    }
  }
}

=== FILE: residency.dfy ===
/** The residency verdict (`is_tax_resident`) and the projected end of
    residency (`when_tax_residency_expires`). */
module Residency {
  import opened Crossings
  import Window
  import Accounting

  /** A person is resident when present strictly more than this many days
      within the rolling year. */
  const Threshold: int := 183

  /** Rejects a log whose crossings do not alternate; otherwise tells whether
      the days present in the rolling year exceed the threshold. */
  function IsTaxResident(s: seq<Event>, today: int, windowStart: int): (r: Result<bool>)
    ensures r == Err(InvalidEntries) <==> !Alternates(s)
    ensures r.Ok? <==> Alternates(s) && Accounting.CalcDays(s, today, windowStart).Ok?
    ensures r.Ok? ==> (r.value <==> Accounting.CalcDays(s, today, windowStart).value > Threshold)
    ensures Alternates(s) && Accounting.CalcDays(s, today, windowStart).Err? ==>
      r == Err(Accounting.CalcDays(s, today, windowStart).error)
  {
    if !Alternates(s) then Err(InvalidEntries)
    else
      match Accounting.CalcDays(s, today, windowStart)
      case Err(e) => Err(e)
      case Ok(days) => Ok(days > Threshold)
  }

  /** The date on which the day count would fall back to the threshold,
      projected linearly from today. */
  function WhenResidencyExpires(daysIn: int, today: int): (expires: int)
    ensures expires < today <==> daysIn > Threshold
    ensures expires == today <==> daysIn == Threshold
  {
    today + (Threshold - daysIn)
  }

  /** The projection can be undone: the days present are recovered from the
      projected date, and one more day present moves it one day earlier. */
  lemma ExpiryRoundTrip(daysIn: int, today: int)
    ensures daysIn == Threshold - (WhenResidencyExpires(daysIn, today) - today)
    ensures WhenResidencyExpires(daysIn + 1, today) == WhenResidencyExpires(daysIn, today) - 1
  {
  }

  /** Exactly the threshold is not enough; one day more is. */
  lemma ThresholdIsStrict(s: seq<Event>, today: int, windowStart: int)
    requires Alternates(s)
    ensures Accounting.CalcDays(s, today, windowStart) == Ok(Threshold) ==>
      IsTaxResident(s, today, windowStart) == Ok(false)
    ensures Accounting.CalcDays(s, today, windowStart) == Ok(Threshold + 1) ==>
      IsTaxResident(s, today, windowStart) == Ok(true)
  {
  }

  /** When the verdict is "resident" the expiry date that is then reported
      lies strictly before today. */
  lemma ResidentExpiryIsPast(s: seq<Event>, today: int, windowStart: int)
    requires IsTaxResident(s, today, windowStart) == Ok(true)
    ensures Accounting.CalcDays(s, today, windowStart).Ok?
    ensures WhenResidencyExpires(Accounting.CalcDays(s, today, windowStart).value, today) < today
  {
  }

  /** For a valid sorted log with no crossing after today, a person who has
      not been in the country for more than the threshold since the first
      crossing is never resident. */
  lemma NoResidencyWithinThreshold(s: seq<Event>, today: int, windowStart: int)
    requires Alternates(s) && SortedByDate(s) && NoneAfter(s, today)
    ensures |s| > 0 && today - s[0].date <= Threshold ==>
            IsTaxResident(s, today, windowStart) != Ok(true)
  {
    if Accounting.CalcDays(s, today, windowStart).Ok? {
      Accounting.CalcDaysBounds(s, today, windowStart);
    }
  }

  /** For a valid sorted log with no crossing on the window start and none
      after today, the verdict is reached unless the index error is raised
      (`NothingToInspectExactly` says exactly when), and a person who has
      not been in the country for more than the threshold since the first
      crossing is never resident. */
  lemma VerdictOnCleanLog(s: seq<Event>, today: int, windowStart: int)
    requires Alternates(s) && SortedByDate(s)
    requires NoneDatedOn(s, windowStart) && NoneAfter(s, today)
    ensures IsTaxResident(s, today, windowStart).Ok? ||
            IsTaxResident(s, today, windowStart) == Err(NothingToInspect)
    ensures |s| > 0 && today - s[0].date <= Threshold ==>
            IsTaxResident(s, today, windowStart) != Ok(true)
  {
    Window.ResolveWellFormed(s, today, windowStart);
    NoResidencyWithinThreshold(s, today, windowStart);
  }
}

=== FILE: scenarios.dfy ===
/** Worked examples. Dates are day ordinals counted from 1 January 2021
    (day 0), so 5 March 2021 is day 63 and 15 March 2022 is day 438. */
module Scenarios {
  import opened Crossings
  import Window
  import Accounting
  import Residency

  /** 15 March 2022, and the same date a year earlier. */
  const Today: int := 438
  const WindowStart: int := 73

  /** The day total of a list holding one entry and then one exit. */
  lemma SingleStayTotal(r: seq<Event>)
    requires |r| == 2 && r[0].kind == In && r[1].kind == Out
    ensures Accounting.TotalDays(r) == r[1].date - r[0].date
  {
    Accounting.ZipPairsConsecutive(r);
    assert r[2..] == [];
  }

  /** A single stay with both crossings inside the window is counted as is:
      nothing is synthesised and the total is the length of the stay. */
  lemma OneStayInsideWindow(s: seq<Event>, today: int, windowStart: int)
    requires |s| == 2 && s[0].kind == In && s[1].kind == Out
    requires windowStart < s[0].date <= s[1].date
    ensures Window.Resolve(s, today, windowStart) == Ok(s)
    ensures Accounting.CalcDays(s, today, windowStart) == Ok(s[1].date - s[0].date)
  {
    Window.CarriedWholeLog(s, windowStart);
    assert Window.CloseEnds(s, today) == Ok(s);
    SingleStayTotal(s);
    Accounting.CalcDaysOfResolved(s, today, windowStart, s);
  }

  /** A single entry inside the window, with no exit yet, is closed today:
      the total is the days from the entry to today. */
  lemma StillPresent(s: seq<Event>, today: int, windowStart: int)
    requires |s| == 1 && s[0].kind == In && windowStart < s[0].date
    ensures Window.Resolve(s, today, windowStart) == Ok(s + [Event(Out, today)])
    ensures Accounting.CalcDays(s, today, windowStart) == Ok(today - s[0].date)
  {
    var r := s + [Event(Out, today)];
    Window.CarriedWholeLog(s, windowStart);
    assert Window.CloseEnds(s, today) == Ok(r) by {
      assert Window.DropLeadingOut(s) == s;
      assert Window.CloseOpenStay(s, today) == r;
    }
    assert |r| == 2 && r[0] == s[0] && r[1] == Event(Out, today);
    SingleStayTotal(r);
    Accounting.CalcDaysOfResolved(s, today, windowStart, r);
  }

  /** Entered 10 January 2022, left 14 March 2022: 63 days, not resident. */
  lemma RecentStayNotResident()
    ensures Residency.IsTaxResident([Event(In, 374), Event(Out, 437)], Today, WindowStart) == Ok(false)
  {
    OneStayInsideWindow([Event(In, 374), Event(Out, 437)], Today, WindowStart);
  }

  /** Entered 1 April 2021 and still present: 348 days, resident, and the
      projected expiry lies 165 days before today. */
  lemma LongStayResident()
    ensures Residency.IsTaxResident([Event(In, 90)], Today, WindowStart) == Ok(true)
    ensures Residency.WhenResidencyExpires(348, Today) == Today - 165
  {
    StillPresent([Event(In, 90)], Today, WindowStart);
  }

  /** A stay of exactly the threshold inside the window is not residency,
      although the rule the source states in its header comment asks for at
      least 183 days. */
  lemma ThresholdStayNotResident(d: int, today: int, windowStart: int)
    requires windowStart < d
    ensures Accounting.CalcDays([Event(In, d), Event(Out, d + Residency.Threshold)], today, windowStart)
      == Ok(Residency.Threshold)
    ensures Residency.IsTaxResident([Event(In, d), Event(Out, d + Residency.Threshold)], today, windowStart)
      == Ok(false)
  {
    OneStayInsideWindow([Event(In, d), Event(Out, d + Residency.Threshold)], today, windowStart);
  }

  /** A stay that began before the window start and ended inside it is
      counted whole, from its entry and not from the window start. */
  lemma StayAcrossWindowStart(a: int, b: int, today: int, windowStart: int)
    requires a < windowStart < b
    ensures Window.Resolve([Event(In, a), Event(Out, b)], today, windowStart)
      == Ok([Event(In, a), Event(Out, b)])
    ensures Accounting.CalcDays([Event(In, a), Event(Out, b)], today, windowStart) == Ok(b - a)
  {
    var s := [Event(In, a), Event(Out, b)];
    Window.AnchorAt(s, windowStart, 0);
    Window.InWindowCut(s, windowStart, 1);
    assert Window.Carried(s, windowStart) == s;
    assert Window.CloseEnds(s, today) == Ok(s);
    SingleStayTotal(s);
    Accounting.CalcDaysOfResolved(s, today, windowStart, s);
  }

  /** Entered 200 days before the window start and left ten days into it:
      only the exit lies in the window, yet 210 days are counted and the
      verdict is resident. */
  lemma OldEntryMakesResident()
    ensures Window.InWindow([Event(In, WindowStart - 200), Event(Out, WindowStart + 10)], WindowStart)
      == [Event(Out, WindowStart + 10)]
    ensures Accounting.CalcDays([Event(In, WindowStart - 200), Event(Out, WindowStart + 10)], Today, WindowStart)
      == Ok(210)
    ensures Residency.IsTaxResident([Event(In, WindowStart - 200), Event(Out, WindowStart + 10)], Today, WindowStart)
      == Ok(true)
  {
    StayAcrossWindowStart(WindowStart - 200, WindowStart + 10, Today, WindowStart);
  }

  /** The example log: entered 5 March 2021, left 13 June 2021, entered
      10 August 2021, left 27 December 2021, entered 10 January 2022, left
      14 March 2022. */
  predicate IsExampleLog(s: seq<Event>) {
    s == [Event(In, 63), Event(Out, 163), Event(In, 221),
          Event(Out, 360), Event(In, 374), Event(Out, 437)]
  }

  /** The March 2021 entry is the anchor and is carried over with its own
      date, so the example log resolves to itself. */
  lemma ExampleLogResolves(s: seq<Event>)
    requires IsExampleLog(s)
    ensures Window.Resolve(s, Today, WindowStart) == Ok(s)
  {
    assert |s| == 6 && s[0] == Event(In, 63);
    assert Window.Carried(s, WindowStart) == s by {
      Window.AnchorAt(s, WindowStart, 0);
      Window.InWindowCut(s, WindowStart, 1);
      assert [s[0]] + s[1..] == s;
    }
    assert Window.CloseEnds(s, Today) == Ok(s) by {
      assert Last(s).kind == Out;
    }
  }

  /** The stays of the example log last 100, 139 and 63 days. */
  lemma ExampleLogTotal(s: seq<Event>)
    requires IsExampleLog(s)
    ensures Accounting.TotalDays(s) == 302
  {
    Accounting.ZipPairsConsecutive(s);
    assert s[2..][2..] == s[4..];
    assert s[4..][2..] == [];
    assert Accounting.StayDays(s[4..]) == 63;
    assert Accounting.StayDays(s[2..]) == 139 + 63;
  }

  /** Because the anchor keeps its date, the ten days before the window
      start count too: 100 + 139 + 63 = 302 days, resident. */
  lemma ExampleLog(s: seq<Event>)
    requires IsExampleLog(s)
    ensures Window.Resolve(s, Today, WindowStart).Ok?
    ensures Window.Resolve(s, Today, WindowStart).value[0].date == WindowStart - 10
    ensures Accounting.CalcDays(s, Today, WindowStart) == Ok(302)
    ensures Residency.IsTaxResident(s, Today, WindowStart) == Ok(true)
  {
    ExampleLogResolves(s);
    ExampleLogTotal(s);
    Accounting.CalcDaysOfResolved(s, Today, WindowStart, s);
  }

  /** Two entries in a row are rejected whatever their dates. */
  lemma TwoEntriesRejected(d1: int, d2: int, today: int, windowStart: int)
    ensures Residency.IsTaxResident([Event(In, d1), Event(In, d2)], today, windowStart)
      == Err(InvalidEntries)
  {
    var s := [Event(In, d1), Event(In, d2)];
    assert s[0].kind == s[1].kind;
  }
}

=== FILE: validator.dfy ===
/** The check that a date-sorted crossing log alternates between entries and
    exits (`are_entries_valid`). */
module Validator {
  import opened Crossings

  /** Walks the log remembering the previous kind and rejects the first
      crossing whose kind repeats it. The log is taken to be sorted already;
      its order is not checked. An empty or one-crossing log is valid. */
  method AreEntriesValid(entries: seq<Event>) returns (valid: bool)
    ensures valid <==> Alternates(entries)
    ensures |entries| <= 1 ==> valid
  {
    var last: Option<Kind> := None;
    var i := 0;
    while i < |entries|
      invariant 0 <= i <= |entries|
      invariant Alternates(entries[..i])
      invariant last == if i == 0 then None else Some(entries[i - 1].kind)
    {
      var current := entries[i].kind;
      if last.Some? && last.value == current {
        return false;
      }
      last := Some(current);
      i := i + 1;
    }
    assert entries[..i] == entries;
    return true;
  }
}

=== FILE: window.dfy ===
/** Window resolution (`calc_days_in_country_for_last_year`, first half): clip
    the crossing log to the rolling year that ends today, carry an open stay
    over from before the window, and close the list on both ends.

    `windowStart` is the original's `last_year`: today's calendar date one
    year earlier. The original computes it with `date.replace`, which raises
    on 29 February; here it is a parameter, so that failure is not modelled.
 */
module Window {
  import opened Crossings

  /** The carry-over anchor: the position of the last crossing, in list
      order, dated strictly before the window start. */
  function AnchorIndex(s: seq<Event>, windowStart: int): (r: Option<nat>)
    ensures r.None? <==> forall i :: 0 <= i < |s| ==> s[i].date >= windowStart
    ensures r.Some? ==>
      && r.value < |s|
      && s[r.value].date < windowStart
      && forall j :: r.value < j < |s| ==> s[j].date >= windowStart
  {
    if |s| == 0 then None
    else if Last(s).date < windowStart then Some(|s| - 1)
    else AnchorIndex(s[..|s| - 1], windowStart)
  }

  /** The crossings dated strictly after the window start, in log order. */
  function InWindow(s: seq<Event>, windowStart: int): (r: seq<Event>)
    ensures |r| <= |s|
    ensures forall i :: 0 <= i < |r| ==> r[i].date > windowStart
  {
    if |s| == 0 then []
    else (if s[0].date > windowStart then [s[0]] else []) + InWindow(s[1..], windowStart)
  }

  /** The entry carried over from before the window: a fresh entry when the
      anchor is an entry, nothing when it is an exit or when there is no
      anchor. The fresh entry keeps the anchor's own date, which lies before
      the window start. */
  function CarryOver(s: seq<Event>, windowStart: int): (p: seq<Event>)
    ensures |p| <= 1
    ensures |p| == 1 <==>
      AnchorIndex(s, windowStart).Some? && s[AnchorIndex(s, windowStart).value].kind == In
    ensures |p| == 1 ==>
      && p[0] == Event(In, s[AnchorIndex(s, windowStart).value].date)
      && p[0].date < windowStart
  {
    match AnchorIndex(s, windowStart)
    case Some(i) => if s[i].kind.In? then [Event(In, s[i].date)] else []
    case None => []
  }

  /** The clipped log with the carried-over entry in front. */
  function Carried(s: seq<Event>, windowStart: int): seq<Event> {
    CarryOver(s, windowStart) + InWindow(s, windowStart)
  }

  /** Removes one leading exit, if there is one. */
  function DropLeadingOut(c: seq<Event>): seq<Event>
    requires |c| > 0
  {
    if c[0].kind.Out? then c[1..] else c
  }

  /** Closes a stay still open at the end of the list with an exit dated
      today. */
  function CloseOpenStay(d: seq<Event>, today: int): seq<Event>
    requires |d| > 0
  {
    if Last(d).kind.In? then d + [Event(Out, today)] else d
  }

  /** Nothing to count: the carried list is empty or a lone exit, the two
      shapes on which the original raises the index error. */
  predicate NothingToCount(c: seq<Event>) {
    |c| == 0 || (|c| == 1 && c[0].kind == Out)
  }

  /** The boundary fix-ups applied to the carried list: an index error when
      the list is empty before or after dropping a leading exit, an assertion
      failure when the closed list has odd length. */
  function CloseEnds(c: seq<Event>, today: int): (r: Result<seq<Event>>)
    ensures r.Err? ==> r.error == NothingToInspect || r.error == OddLength
    ensures r.Ok? ==> |r.value| > 0 && |r.value| % 2 == 0 && Last(r.value).kind == Out
    ensures r == Err(NothingToInspect) <==> NothingToCount(c)
  {
    if |c| == 0 then Err(NothingToInspect)
    else
      var d := DropLeadingOut(c);
      if |d| == 0 then Err(NothingToInspect)
      else
        var e := CloseOpenStay(d, today);
        if |e| % 2 != 0 then Err(OddLength) else Ok(e)
  }

  /** The resolved list whose entries and exits are paired up, or the
      exception the original raises while building it. */
  function Resolve(s: seq<Event>, today: int, windowStart: int): (r: Result<seq<Event>>)
    ensures r.Err? ==> r.error == NothingToInspect || r.error == OddLength
    ensures r.Ok? ==> |r.value| > 0 && |r.value| % 2 == 0 && Last(r.value).kind == Out
  {
    CloseEnds(Carried(s, windowStart), today)
  }

  // ---------------------------------------------------------------------
  // The clipped log

  /** The clipped log holds exactly the crossings dated strictly after the
      window start: one dated on the window start itself is dropped. */
  lemma {:induction false} InWindowExactly(s: seq<Event>, windowStart: int)
    ensures forall e :: e in InWindow(s, windowStart) <==> e in s && e.date > windowStart
  {
    if |s| > 0 {
      InWindowExactly(s[1..], windowStart);
      assert s == [s[0]] + s[1..];
    }
  }

  /** Filtering distributes over concatenation, so the clipped log keeps the
      crossings in their original order. */
  lemma {:induction false} InWindowAppend(a: seq<Event>, b: seq<Event>, windowStart: int)
    ensures InWindow(a + b, windowStart) == InWindow(a, windowStart) + InWindow(b, windowStart)
  {
    if |a| == 0 {
      assert a + b == b;
    } else {
      assert (a + b)[1..] == a[1..] + b;
      InWindowAppend(a[1..], b, windowStart);
    }
  }

  lemma {:induction false} InWindowKeepsAll(s: seq<Event>, windowStart: int)
    requires forall i :: 0 <= i < |s| ==> s[i].date > windowStart
    ensures InWindow(s, windowStart) == s
  {
    if |s| > 0 {
      InWindowKeepsAll(s[1..], windowStart);
    }
  }

  lemma {:induction false} InWindowDropsAll(s: seq<Event>, windowStart: int)
    requires forall i :: 0 <= i < |s| ==> s[i].date <= windowStart
    ensures InWindow(s, windowStart) == []
  {
    if |s| > 0 {
      InWindowDropsAll(s[1..], windowStart);
    }
  }

  /** The anchor is determined by its defining property: a crossing dated
      before the window start with none after it in the list. */
  lemma AnchorAt(s: seq<Event>, windowStart: int, k: nat)
    requires k < |s| && s[k].date < windowStart
    requires forall j :: k < j < |s| ==> s[j].date >= windowStart
    ensures AnchorIndex(s, windowStart) == Some(k)
  {
  }

  /** A log whose crossings all lie after the window start has no anchor and
      is carried over unchanged. */
  lemma CarriedWholeLog(s: seq<Event>, windowStart: int)
    requires forall i :: 0 <= i < |s| ==> s[i].date > windowStart
    ensures AnchorIndex(s, windowStart) == None
    ensures Carried(s, windowStart) == s
  {
    InWindowKeepsAll(s, windowStart);
  }

  /** A log whose crossings up to position `k` lie on or before the window
      start and whose later crossings lie after it is clipped to its suffix
      from `k`. */
  lemma InWindowCut(s: seq<Event>, windowStart: int, k: nat)
    requires k <= |s|
    requires forall i :: 0 <= i < k ==> s[i].date <= windowStart
    requires forall i :: k <= i < |s| ==> s[i].date > windowStart
    ensures InWindow(s, windowStart) == s[k..]
  {
    assert s == s[..k] + s[k..];
    InWindowAppend(s[..k], s[k..], windowStart);
    InWindowDropsAll(s[..k], windowStart);
    InWindowKeepsAll(s[k..], windowStart);
  }

  /** On a sorted log the clipped log is a suffix: everything before it is
      dated on or before the window start, everything in it after. */
  lemma {:induction false} WindowIsSuffix(s: seq<Event>, windowStart: int)
    requires SortedByDate(s)
    ensures InWindow(s, windowStart) == s[|s| - |InWindow(s, windowStart)|..]
    ensures forall i :: 0 <= i < |s| - |InWindow(s, windowStart)| ==> s[i].date <= windowStart
    ensures forall i :: |s| - |InWindow(s, windowStart)| <= i < |s| ==> s[i].date > windowStart
  {
    if |s| > 0 {
      if s[0].date > windowStart {
        InWindowKeepsAll(s, windowStart);
      } else {
        var t := s[1..];
        assert SortedByDate(t);
        WindowIsSuffix(t, windowStart);
        var k' := |t| - |InWindow(t, windowStart)|;
        assert t[k'..] == s[k' + 1..];
        forall i | 0 <= i < |s|
          ensures i < k' + 1 ==> s[i].date <= windowStart
          ensures i >= k' + 1 ==> s[i].date > windowStart
        {
          if i > 0 {
            assert s[i] == t[i - 1];
          }
        }
      }
    }
  }

  /** On a sorted log with no crossing on the window start, the anchor is the
      crossing immediately before the clipped log, if any. */
  lemma AnchorJustBeforeWindow(s: seq<Event>, windowStart: int)
    requires SortedByDate(s) && NoneDatedOn(s, windowStart)
    ensures InWindow(s, windowStart) == s[|s| - |InWindow(s, windowStart)|..]
    ensures forall i :: 0 <= i < |s| - |InWindow(s, windowStart)| ==> s[i].date < windowStart
    ensures forall i :: |s| - |InWindow(s, windowStart)| <= i < |s| ==> s[i].date > windowStart
    ensures |InWindow(s, windowStart)| == |s| ==> AnchorIndex(s, windowStart) == None
    ensures |InWindow(s, windowStart)| < |s| ==>
      AnchorIndex(s, windowStart) == Some(|s| - |InWindow(s, windowStart)| - 1)
  {
    WindowIsSuffix(s, windowStart);
    var k := |s| - |InWindow(s, windowStart)|;
    forall i | 0 <= i < k
      ensures s[i].date < windowStart
    {
      assert s[i].date <= windowStart && s[i].date != windowStart;
    }
    if k > 0 {
      AnchorAt(s, windowStart, k - 1);
    }
  }

  // ---------------------------------------------------------------------
  // The boundary fix-ups

  /** At most one crossing, a leading exit, is removed; the rest of the list
      is unchanged. */
  lemma DropLeadingOutRemovesOneExit(c: seq<Event>)
    requires |c| > 0
    ensures |c| - 1 <= |DropLeadingOut(c)| <= |c|
    ensures DropLeadingOut(c) == c[|c| - |DropLeadingOut(c)|..]
    ensures |DropLeadingOut(c)| < |c| <==> c[0].kind == Out
  {
  }

  /** At most one crossing, an exit dated today, is appended, and only when
      the list ends with an entry; the list before it is unchanged and the
      result ends with an exit. */
  lemma CloseOpenStayAppendsOneExit(d: seq<Event>, today: int)
    requires |d| > 0
    ensures Last(d).kind == In ==> CloseOpenStay(d, today) == d + [Event(Out, today)]
    ensures Last(d).kind == Out ==> CloseOpenStay(d, today) == d
    ensures CloseOpenStay(d, today)[..|d|] == d
    ensures Last(CloseOpenStay(d, today)).kind == Out
  {
  }

  // ---------------------------------------------------------------------
  // Shape of the resolved list

  /** The carried list of a valid sorted log with no crossing on the window
      start still alternates. */
  lemma CarriedAlternates(s: seq<Event>, windowStart: int)
    requires Alternates(s) && SortedByDate(s) && NoneDatedOn(s, windowStart)
    ensures Alternates(Carried(s, windowStart))
  {
    AnchorJustBeforeWindow(s, windowStart);
    var w := InWindow(s, windowStart);
    var k := |s| - |w|;
    AlternatesSuffix(s, k);
    var p := CarryOver(s, windowStart);
    if |p| == 1 {
      if |w| > 0 {
        assert w[0] == s[k];
        assert s[k - 1].kind != s[k].kind;
      }
      AlternatesPrepend(p[0], w);
      assert p == [p[0]];
    } else {
      assert p == [];
      assert Carried(s, windowStart) == w;
    }
  }

  /** Dropping the leading exit of an alternating list leaves an alternating
      list that starts with an entry. */
  lemma DropLeadingOutAlternates(c: seq<Event>)
    requires |c| > 0 && Alternates(c)
    ensures Alternates(DropLeadingOut(c))
    ensures |DropLeadingOut(c)| > 0 ==> DropLeadingOut(c)[0].kind == In
  {
    var d := DropLeadingOut(c);
    AlternatesSuffix(c, |c| - |d|);
    if |d| > 0 && c[0].kind == Out {
      assert d[0] == c[1];
    }
  }

  /** Closing the open stay of an alternating list that starts with an entry
      keeps it alternating and makes its length even. */
  lemma CloseOpenStayAlternates(d: seq<Event>, today: int)
    requires |d| > 0 && Alternates(d) && d[0].kind == In
    ensures Alternates(CloseOpenStay(d, today))
    ensures CloseOpenStay(d, today)[0].kind == In
    ensures |CloseOpenStay(d, today)| % 2 == 0
  {
    var e := CloseOpenStay(d, today);
    if |e| > |d| {
      assert e == d + [Event(Out, today)];
      AlternatesAppend(d, Event(Out, today));
    } else {
      assert e == d;
    }
    EvenIffEndsWithOut(e);
  }

  /** The fix-ups turn an alternating list into one that alternates, starts
      with an entry and has even length, so the assertion cannot fail. */
  lemma CloseEndsAlternates(c: seq<Event>, today: int)
    requires Alternates(c)
    ensures CloseEnds(c, today) != Err(OddLength)
    ensures CloseEnds(c, today).Ok? ==>
      var r := CloseEnds(c, today).value;
      Alternates(r) && r[0].kind == In && Last(r).kind == Out && |r| % 2 == 0
  {
    if |c| > 0 {
      var d := DropLeadingOut(c);
      DropLeadingOutAlternates(c);
      if |d| > 0 {
        CloseOpenStayAlternates(d, today);
      }
    }
  }

  /** An entry followed by an alternating list that starts with an entry as
      well: the shape the carried list takes when crossings dated on the
      window start separate an entry anchor from an entry in the window. */
  predicate DoubleEntry(c: seq<Event>) {
    |c| >= 2 && c[0].kind == In && c[1].kind == In && Alternates(c[1..])
  }

  /** Without any condition on the window start, the carried list of a valid
      sorted log alternates or has the double-entry shape. */
  lemma CarriedShape(s: seq<Event>, windowStart: int)
    requires Alternates(s) && SortedByDate(s)
    ensures Alternates(Carried(s, windowStart)) || DoubleEntry(Carried(s, windowStart))
  {
    WindowIsSuffix(s, windowStart);
    var w := InWindow(s, windowStart);
    AlternatesSuffix(s, |s| - |w|);
    var p := CarryOver(s, windowStart);
    var c := Carried(s, windowStart);
    if |p| == 0 {
      assert c == w;
    } else if |w| == 0 || w[0].kind == Out {
      assert p == [p[0]];
      AlternatesPrepend(p[0], w);
    } else {
      assert c[1..] == w;
    }
  }

  /** A double-entry list always fails the assertion on even length: its
      alternating tail starts with an entry, so it has odd length once
      closed, and the extra entry in front makes the whole list odd. */
  lemma DoubleEntryOddLength(c: seq<Event>, today: int)
    requires DoubleEntry(c)
    ensures CloseEnds(c, today) == Err(OddLength)
  {
    var t := c[1..];
    EvenIffEndsWithOut(t);
    assert Last(c) == Last(t);
    assert DropLeadingOut(c) == c;
  }

  /** For any valid sorted log, a resolved list alternates, starts with an
      entry, ends with an exit and has even length: a crossing dated on the
      window start can make resolution fail, but never lets a malformed list
      through. */
  lemma ResolvedShape(s: seq<Event>, today: int, windowStart: int)
    requires Alternates(s) && SortedByDate(s)
    ensures Resolve(s, today, windowStart).Ok? ==>
      var r := Resolve(s, today, windowStart).value;
      Alternates(r) && r[0].kind == In && Last(r).kind == Out && |r| % 2 == 0
  {
    var c := Carried(s, windowStart);
    CarriedShape(s, windowStart);
    if Alternates(c) {
      CloseEndsAlternates(c, today);
    } else {
      DoubleEntryOddLength(c, today);
    }
  }

  /** For a valid sorted log with no crossing on the window start the
      assertion on even length cannot fail, and a resolved list alternates,
      starts with an entry and ends with an exit. */
  lemma ResolveWellFormed(s: seq<Event>, today: int, windowStart: int)
    requires Alternates(s) && SortedByDate(s) && NoneDatedOn(s, windowStart)
    ensures Resolve(s, today, windowStart) != Err(OddLength)
    ensures Resolve(s, today, windowStart).Ok? ==>
      var r := Resolve(s, today, windowStart).value;
      Alternates(r) && r[0].kind == In && Last(r).kind == Out && |r| % 2 == 0
  {
    CarriedAlternates(s, windowStart);
    CloseEndsAlternates(Carried(s, windowStart), today);
  }

  /** On a sorted log with nothing dated on or after the window start, every
      crossing lies before it, and there is nothing to count exactly when the
      log is empty or its last crossing is an exit. */
  lemma NothingInWindow(s: seq<Event>, windowStart: int)
    requires SortedByDate(s) && NoneDatedOn(s, windowStart)
    requires |InWindow(s, windowStart)| == 0
    ensures forall i :: 0 <= i < |s| ==> s[i].date < windowStart
    ensures NothingToCount(Carried(s, windowStart)) <==> |s| == 0 || Last(s).kind == Out
  {
    AnchorJustBeforeWindow(s, windowStart);
    assert Carried(s, windowStart) == CarryOver(s, windowStart);
  }

  /** On a valid sorted log with nothing dated on the window start and
      crossings both before and after it, there is always something to
      count: the anchor is an entry that is carried over in front of the
      window, or an exit followed by an entry in the window. */
  lemma StraddlingWindow(s: seq<Event>, windowStart: int)
    requires Alternates(s) && SortedByDate(s) && NoneDatedOn(s, windowStart)
    requires 0 < |InWindow(s, windowStart)| < |s|
    ensures !NothingToCount(Carried(s, windowStart))
  {
    AnchorJustBeforeWindow(s, windowStart);
    var w := InWindow(s, windowStart);
    var k := |s| - |w|;
    var c := Carried(s, windowStart);
    if s[k - 1].kind == In {
      assert |c| == 1 + |w|;
    } else {
      assert c == w;
      assert w[0] == s[k];
      assert s[k - 1].kind != s[k].kind;
    }
  }

  /** On a valid sorted log with nothing dated on the window start and some
      crossing after it, the carried list is a lone exit exactly when the
      log is one exit inside the window. */
  lemma SomethingInWindow(s: seq<Event>, windowStart: int)
    requires Alternates(s) && SortedByDate(s) && NoneDatedOn(s, windowStart)
    requires |InWindow(s, windowStart)| > 0
    ensures !forall i :: 0 <= i < |s| ==> s[i].date < windowStart
    ensures NothingToCount(Carried(s, windowStart)) <==>
      |s| == 1 && s[0].kind == Out && s[0].date > windowStart
  {
    WindowIsSuffix(s, windowStart);
    var k := |s| - |InWindow(s, windowStart)|;
    var c := Carried(s, windowStart);
    assert s[k].date > windowStart;
    if k == 0 {
      CarriedWholeLog(s, windowStart);
      assert c == s && s[0].date > windowStart;
    } else {
      StraddlingWindow(s, windowStart);
      assert !NothingToCount(c) && |s| != 1;
    }
  }

  /** For a valid sorted log with no crossing on the window start, the index
      error happens exactly when nothing is dated after the window start and
      the person was out at its start, or when the whole log is one exit
      inside the window. */
  lemma NothingToInspectExactly(s: seq<Event>, today: int, windowStart: int)
    requires Alternates(s) && SortedByDate(s) && NoneDatedOn(s, windowStart)
    ensures Resolve(s, today, windowStart) == Err(NothingToInspect) <==>
      || ((forall i :: 0 <= i < |s| ==> s[i].date < windowStart) && (|s| == 0 || Last(s).kind == Out))
      || (|s| == 1 && s[0].kind == Out && s[0].date > windowStart)
  {
    if |InWindow(s, windowStart)| == 0 {
      NothingInWindow(s, windowStart);
    } else {
      SomethingInWindow(s, windowStart);
    }
  }

  /** A list starting with an entry survives the fix-ups with that entry in
      front. */
  lemma CloseEndsKeepsLeadingIn(c: seq<Event>, today: int)
    requires |c| > 0 && c[0].kind == In
    ensures CloseEnds(c, today) != Err(NothingToInspect)
    ensures CloseEnds(c, today).Ok? ==> CloseEnds(c, today).value[0] == c[0]
  {
    var d := DropLeadingOut(c);
    assert d == c;
    var e := CloseOpenStay(d, today);
    assert e[0] == d[0];
  }

  /** An entry carried over from before the window keeps its original date,
      so days before the window start are counted; the index error cannot
      happen and a resolved list starts with that entry. */
  lemma CarryOverKeepsAnchorDate(s: seq<Event>, today: int, windowStart: int)
    requires AnchorIndex(s, windowStart).Some?
    requires s[AnchorIndex(s, windowStart).value].kind == In
    ensures s[AnchorIndex(s, windowStart).value].date < windowStart
    ensures Resolve(s, today, windowStart) != Err(NothingToInspect)
    ensures Resolve(s, today, windowStart).Ok? ==>
      Resolve(s, today, windowStart).value[0]
        == Event(In, s[AnchorIndex(s, windowStart).value].date)
  {
    var c := Carried(s, windowStart);
    assert c[0] == CarryOver(s, windowStart)[0];
    CloseEndsKeepsLeadingIn(c, today);
  }

  /** The last crossing of a log, when dated after the window start, is also
      the last crossing of the clipped log. */
  lemma InWindowLast(s: seq<Event>, windowStart: int)
    requires |s| > 0 && Last(s).date > windowStart
    ensures |InWindow(s, windowStart)| > 0
    ensures Last(InWindow(s, windowStart)) == Last(s)
  {
    var n := |s|;
    assert s == s[..n - 1] + [Last(s)];
    InWindowAppend(s[..n - 1], [Last(s)], windowStart);
    assert InWindow([Last(s)], windowStart) == [Last(s)];
  }

  /** A list ending with an entry is closed by an exit dated today. */
  lemma CloseEndsClosesOpenStay(c: seq<Event>, today: int)
    requires |c| > 0 && Last(c).kind == In
    requires CloseEnds(c, today).Ok?
    ensures Last(CloseEnds(c, today).value) == Event(Out, today)
  {
    var d := DropLeadingOut(c);
    assert |d| > 0;
    assert d[|d| - 1] == c[|c| - 1];
    var e := CloseOpenStay(d, today);
    assert |e| > |d|;
    assert CloseEnds(c, today) == Ok(e);
  }

  /** A stay still open at the end of the log, inside the window, is closed
      by an exit dated today. */
  lemma OpenStayEndsToday(s: seq<Event>, today: int, windowStart: int)
    requires |s| > 0 && Last(s).kind == In && Last(s).date > windowStart
    requires Resolve(s, today, windowStart).Ok?
    ensures Last(Resolve(s, today, windowStart).value) == Event(Out, today)
  {
    InWindowLast(s, windowStart);
    var c := Carried(s, windowStart);
    assert Last(c) == Last(InWindow(s, windowStart));
    CloseEndsClosesOpenStay(c, today);
  }

  lemma WindowWithinLog(s: seq<Event>, windowStart: int)
    requires SortedByDate(s) && |s| > 0
    ensures forall i :: 0 <= i < |InWindow(s, windowStart)| ==>
      s[0].date <= InWindow(s, windowStart)[i].date <= Last(s).date
  {
    WindowIsSuffix(s, windowStart);
    var w := InWindow(s, windowStart);
    var k := |s| - |w|;
    forall i | 0 <= i < |w|
      ensures s[0].date <= w[i].date <= Last(s).date
    {
      assert w[i] == s[k + i];
    }
  }

  lemma CarryOverWithinLog(s: seq<Event>, windowStart: int)
    requires SortedByDate(s) && |s| > 0
    ensures forall i :: 0 <= i < |CarryOver(s, windowStart)| ==>
      s[0].date <= CarryOver(s, windowStart)[i].date <= Last(s).date
  {
    var p := CarryOver(s, windowStart);
    if |p| == 1 {
      var a := AnchorIndex(s, windowStart).value;
      assert p[0].date == s[a].date;
    }
  }

  /** Every crossing of the carried list of a sorted log is dated between the
      first crossing of the log and the last one. */
  lemma CarriedWithinLog(s: seq<Event>, windowStart: int)
    requires SortedByDate(s) && |s| > 0
    ensures forall i :: 0 <= i < |Carried(s, windowStart)| ==>
      s[0].date <= Carried(s, windowStart)[i].date <= Last(s).date
  {
    WindowWithinLog(s, windowStart);
    CarryOverWithinLog(s, windowStart);
    var w := InWindow(s, windowStart);
    var p := CarryOver(s, windowStart);
    var c := Carried(s, windowStart);
    forall i | 0 <= i < |c|
      ensures s[0].date <= c[i].date <= Last(s).date
    {
      if i < |p| {
        assert c[i] == p[i];
      } else {
        assert c[i] == w[i - |p|];
      }
    }
  }

  /** The carried list of a sorted log is sorted. */
  lemma CarriedSorted(s: seq<Event>, windowStart: int)
    requires SortedByDate(s)
    ensures SortedByDate(Carried(s, windowStart))
  {
    WindowIsSuffix(s, windowStart);
    var w := InWindow(s, windowStart);
    SortedSuffix(s, |s| - |w|);
    var p := CarryOver(s, windowStart);
    if |p| == 1 {
      SortedPrepend(p[0], w);
      assert p == [p[0]];
    } else {
      assert p == [];
    }
  }

  /** The fix-ups keep a sorted list dated within [lo, today] sorted and
      within the same bounds. */
  lemma CloseEndsSorted(c: seq<Event>, today: int, lo: int)
    requires SortedByDate(c) && lo <= today
    requires forall i :: 0 <= i < |c| ==> lo <= c[i].date <= today
    requires CloseEnds(c, today).Ok?
    ensures SortedByDate(CloseEnds(c, today).value)
    ensures lo <= CloseEnds(c, today).value[0].date
    ensures Last(CloseEnds(c, today).value).date <= today
  {
    var d := DropLeadingOut(c);
    assert SortedByDate(d) && forall i :: 0 <= i < |d| ==> lo <= d[i].date <= today by {
      var m := |c| - |d|;
      DropLeadingOutRemovesOneExit(c);
      SortedSuffix(c, m);
      forall i | 0 <= i < |d|
        ensures lo <= d[i].date <= today
      {
        assert d[i] == c[m + i];
      }
    }
    var e := CloseOpenStay(d, today);
    CloseOpenStayAppendsOneExit(d, today);
    if Last(d).kind == In {
      SortedAppend(d, Event(Out, today));
    }
    assert e[0] == d[0];
  }

  /** On a sorted log the resolved list is sorted too, it starts no earlier
      than the log and, when no crossing lies after today, it ends no later
      than today. */
  lemma ResolvedSorted(s: seq<Event>, today: int, windowStart: int)
    requires SortedByDate(s) && NoneAfter(s, today)
    requires Resolve(s, today, windowStart).Ok?
    ensures |s| > 0
    ensures SortedByDate(Resolve(s, today, windowStart).value)
    ensures s[0].date <= Resolve(s, today, windowStart).value[0].date
    ensures Last(Resolve(s, today, windowStart).value).date <= today
  {
    var c := Carried(s, windowStart);
    assert |s| > 0;
    CarriedSorted(s, windowStart);
    CarriedWithinLog(s, windowStart);
    CloseEndsSorted(c, today, s[0].date);
  }

  // ---------------------------------------------------------------------
  // The crossing dated on the window start

  /** A valid sorted log with an exit dated exactly on the window start
      fails the assertion on even length: the exit is neither kept in the
      window nor taken as the anchor, so the earlier entry is carried over
      next to the later one and the list resolves to entry, entry, exit. */
  lemma ExitOnWindowStartBreaksAssertion(s: seq<Event>, windowStart: int, today: int)
    requires |s| == 3
    requires s[0].kind == In && s[1] == Event(Out, windowStart) && s[2].kind == In
    requires s[0].date < windowStart < s[2].date
    ensures Alternates(s) && SortedByDate(s)
    ensures AnchorIndex(s, windowStart) == Some(0)
    ensures InWindow(s, windowStart) == [s[2]]
    ensures Carried(s, windowStart) == [s[0], s[2]]
    ensures Resolve(s, today, windowStart) == Err(OddLength)
  {
    AnchorAt(s, windowStart, 0);
    InWindowCut(s, windowStart, 2);
    assert Carried(s, windowStart) == [s[0], s[2]] by {
      assert s[2..] == [s[2]];
    }
  }
}
